=== FILE: README.md ===
# ShadowRift simulation core in Dafny

A model of the deterministic game logic of ShadowRift, a 2D rooftop fighter
played across two parallel realms, "normal" and "rift". The model
covers three pieces:

- **Fighter physics and terrain** (`lib/game-utils.ts`):
  - `updatePhysics`, one tick of a fighter against a skyline (module `Physics`).
  - `getAnim`, the animation-tag ladder (module `Animation`).
  - `generateSkyline`, the procedural 50-building skyline (module `Skyline`).
  - `getSafeSpawn`, the respawn-point picker (module `Spawn`).
- **Enemy AI** (`lib/aiLogic.ts`): `calculateBotInputs`, which maps an enemy
  and its target to six input flags (module `BotAi`).
- **Sign-up helpers** (`lib/authUtils.ts`):
  - `validateAge`, the twelve-year age gate (module `AgeGate`).
  - `generateRandomUsername`, the guest name generator (module `Username`).

Shared pieces:

- `Common`: `Option`, absolute value, and turning a random draw into an index.
- `Decimal`: natural numbers written in decimal, as template literals print them.
- `Entities`: the building, fighter and enemy records.

Every operation is a pure function. Inputs that the source reads from the
environment become explicit parameters:

- each `Math.random()` draw is a real in [0, 1);
- `Date.now()` is `now`;
- the window height is `floorY`.

The fighter record that `updatePhysics` mutates in place is returned as a new
value. Numbers are mathematical reals.

Behaviours of the code that a reader might not expect, all modelled as written:

- Roof landing looks only at where the fighter ends the tick. It does not use
  the previous y, so a fast fall can pass through a roof
  (`Physics.FallThroughRoof`).
- A dead fighter is skipped outright.
- The physics tick itself sets `isDead` when the fighter falls out of the world.
- `getAnim` has no hit-reaction rung and does not look at `isDying`.
- A hurt elite or boss in another realm steps *away* from its target.
  `dx > 0` gives `left`.

## Model

| member | source | states |
|---|---|---|
| Animation.GetAnim | lib/game-utils.ts:43-53 | each tag holds exactly when its rung applies and no higher rung does: DEATH iff dead; CLIMB iff alive and climbing; the attack tag iff its window is open and the tag is non-empty; JUMP iff airborne and rising; RUN above 350, WALK above 10, otherwise animation0 |
| Animation.IgnoresDying | lib/game-utils.ts:43-53 | the tag does not depend on the death-animation flag |
| Animation.PaceMonotone | lib/game-utils.ts:50-52 | with everything else equal, a faster horizontal speed never shows a slower locomotion tag |
| Physics.ClimbStep | lib/game-utils.ts:68-86 | a climbing tick keeps x and vx; the fighter keeps climbing exactly when the interpolated y is still 2 or more from the ledge, and otherwise snaps onto it, grounded, at rest, with both climb fields cleared; with 0 < 6·dt ≤ 1 the new y lies between the old y and the ledge and closes at least 2·6·dt of the distance |
| Physics.ContactWith | lib/game-utils.ts:97-135 | a building grabs the fighter exactly when it overlaps the building within 12 of a face, its feet are between 10 above and 60 below the roof, and it is neither grounded nor climbing; the grab stops all motion, sets the ledge target and locks x flush against that face (the left face when near it). Otherwise the face pushes the fighter exactly when it overlaps near a face with its feet more than 10 below the roof, and the push sets x flush and vx to 0 |
| Physics.Integrate | lib/game-utils.ts:90-92 | only x, vy and y change; the step is semi-implicit Euler, so over the tick y falls by the old vy·dt plus 2000·dt², not by the old speed alone, while x moves by vx·dt and vy gains 2000·dt |
| Physics.WallScan | lib/game-utils.ts:94-137 | scanning the buildings in order, a grab ends the tick as a ledge grab on some building; otherwise only x and vx change, and only after touching a wall, which leaves the fighter flush against some building's face; the scan neither grabs nor touches exactly when no building is in contact |
| Physics.FirstContactDecides | lib/game-utils.ts:96-137 | the first building in contact decides the scan: a grab there is the scan's result, and a wall there means the scan touches a wall or grabs further on |
| Physics.LandScan | lib/game-utils.ts:144-162 | the landing scan changes only vertical state; the fighter ends grounded iff some roof catches it, and then stands at rest on the roof of a building it lies over (2 of slack each side), no lower than its feet were; with no roof catching it nothing changes |
| Physics.SlideClamp | lib/game-utils.ts:139-141 | after a wall contact the vertical speed is at most 50, capped to exactly 50 when it was faster; without a contact, or when already slower, it is unchanged |
| Physics.FloorLand | lib/game-utils.ts:164-168 | the fighter changes exactly when its feet are at or below floorY while it falls, and then it stands on the street, grounded and at rest; only vertical state changes |
| Physics.FallOut | lib/game-utils.ts:170-171 | the fighter is dead iff it was dead or its y is more than 200 below floorY; nothing else changes |
| Physics.Settle | lib/game-utils.ts:139-171 | after the wall scan: a wall contact caps vy at 50; the fighter ends grounded exactly when a roof or the street catches it, and then at rest on one; a fighter nothing catches keeps its y and the clamped vy; when a roof catches it, it stands on the roof of a building it lies over, no lower than its feet were; when only the street catches it, its feet are at floorY; death is exactly the fall-out condition |
| Physics.FreeStep | lib/game-utils.ts:88-171 | a free tick ends in a ledge grab of the integrated fighter when the wall scan grabs; otherwise the climbing flag is kept, the ground and fall-out invariants hold, and the fighter is grounded exactly when something catches it after the wall scan; with no wall contact it keeps the integrated x and vx, and its integrated y and vy when nothing catches it |
| Physics.Step | lib/game-utils.ts:65-172 | a dead fighter is returned unchanged; size, facing, realm, hp and attack state never change; the climbing and grab rules above; a free mover starts climbing only through a ledge grab; after a wall contact vy ≤ 50 and vx = 0; after a free tick, grounded means at rest on a roof or the street, and dead means y > floorY + 200 |
| Physics.LandsWhenCaught | lib/game-utils.ts:139-168 | after a free tick without a grab, the fighter is grounded exactly when a roof or the street catches it where the wall scan left it |
| Physics.FreeFall | lib/game-utils.ts:90-168 | with no ledge and no wall, x becomes x + vx·dt and vx is kept; the fighter is grounded exactly when a roof or the street catches the moved fighter; otherwise it ends airborne with vy + 2000·dt and y moved by the new vy·dt |
| Physics.PushOnFirstContact | lib/game-utils.ts:96-137 | when the first building in contact pushes the fighter and nothing after it touches the pushed fighter, the scan ends touching, with the fighter flush against that building's face (the left face when near it) and vx 0 |
| Physics.WallOnFirstContact | lib/game-utils.ts:90-171 | a free mover pushed by its first contact, and touching nothing after, ends the tick at that wall's x with vx 0 and vy at most 50, then settles as a wall slide |
| Physics.LandOnSoleCatcher | lib/game-utils.ts:144-162 | when the i-th roof is the first to catch the fighter and no later roof catches it once it stands there, the scan leaves it standing at rest on exactly that roof |
| Physics.LandsOnSoleRoof | lib/game-utils.ts:139-171 | in a free tick with no grab, a fighter that one roof catches where the wall scan left it, and no later roof re-catches, ends the tick with its feet on that roof, grounded and at rest |
| Physics.LandsOnRoofOver | lib/game-utils.ts:144-162 | after a free tick with no grab, a fighter some roof catches ends grounded at rest on the roof of a building it lies over, no lower than its feet were |
| Physics.GrabOnFirstContact | lib/game-utils.ts:90-128 | a free mover whose moved box first meets a building that grabs it ends the tick caught on that building's ledge |
| Physics.StepWhileClimbing | lib/game-utils.ts:66-86 | for a live fighter climbing to a ledge, the tick is the climb step whatever the skyline |
| Physics.ClimbArrives | lib/game-utils.ts:68-86 | with 0 < 6·dt ≤ 1, a climb whose distance is at most n·2·6·dt ends within n + 1 ticks, standing on the ledge at the grab x, grounded and at rest |
| Physics.FallThroughRoof | lib/game-utils.ts:146-168 | a fighter 10 above a roof falling at 3000 with a 0.05 tick ends the tick grounded on the street, inside the building |
| Skyline.Place | lib/game-utils.ts:194-214 | building i has id `type-i`, y 0, the given type, width in [100, 300) and height in [100, 400); it sits at the cursor, or 100 to 200 past it when the gap draw exceeds 0.8 |
| Skyline.After | lib/game-utils.ts:216 | the cursor moves to the building's right edge plus less than 20 |
| Skyline.GenerateSkyline | lib/game-utils.ts:188-220 | exactly 50 buildings, each shaped as above; the space before building i is at least 100 iff its gap draw exceeds 0.8 and under 20 otherwise; the buildings are sorted and do not overlap; the ids are pairwise distinct |
| Skyline.BuildingIdInjective | lib/game-utils.ts:207 | distinct indices give distinct ids `type-i` |
| Skyline.ShapedIdsDistinct | lib/game-utils.ts:207 | the ids of a generated skyline are pairwise distinct |
| Skyline.SpacedIsSorted | lib/game-utils.ts:198-216 | non-negative spaces between consecutive buildings make the skyline sorted and non-overlapping |
| Spawn.SpawnOn | lib/game-utils.ts:57-59 | the middle of the player's box is over the middle of the building and its feet are on the roof; the box clears both roof edges by more than 10 exactly when the building is wider than the player plus 20, which is the filter's condition |
| Spawn.Candidates | lib/game-utils.ts:57-60 | the candidates are exactly the spawn points of the buildings wider than 50; there is one per building when every building qualifies |
| Spawn.GetSafeSpawn | lib/game-utils.ts:56-63 | no point iff no building is wider than 50; otherwise the point is centred on the roof of such a building, with the player's box more than 10 from either roof edge |
| Spawn.GeneratedSkylineAlwaysSpawns | lib/game-utils.ts:201 | on a skyline shaped as the generator promises, every building hosts a spawn point, so a spawn point is always found |
| BotAi.Decide | lib/aiLogic.ts:12-135 | no flag when either side is dead; never left and right together, never punch and kick together; another realm gives only rift unless the enemy is a hurt elite or boss, which backs away when within 300; in the same realm rift iff hurt, smart and out of stun; mid-attack or out of sight nothing else; punch and kick only grounded in melee range and never with a jump; in melee only turning; otherwise chase outside ±30 and jump exactly on a missing platform, a wall with the target below, a rare draw, or a climb with the target more than 100 below |
| AgeGate.Age | lib/authUtils.ts:19-23 | the computed age is the number of anniversaries reached: today is on or after the birthday that many years on, and before the next one |
| AgeGate.ValidateAge | lib/authUtils.ts:13-26 | false for a blank or unreadable date; otherwise true exactly when today is on or after the twelfth birthday |
| AgeGate.StaysValid | lib/authUtils.ts:16-25 | an accepted birth date stays accepted on every later day |
| AgeGate.EarlierBirthValid | lib/authUtils.ts:16-25 | if a birth date is accepted, every earlier birth date is accepted on the same day |
| Username.GenerateRandomUsername | lib/authUtils.ts:5-11 | the name splits back into the adjective, noun and number picked by the three draws, the number below 999 |
| Username.Parse | lib/authUtils.ts:1-10 | a name that parses is the concatenation of a listed adjective, a listed noun and a decimal number below 999 |
| Username.ParseCompose | lib/authUtils.ts:1-10 | every choice of adjective, noun and number below 999 is recovered from its name |
| Username.ParseIffCompose | lib/authUtils.ts:1-10 | a name parses to a choice exactly when it is the name of that choice |
| Username.ComposeInjective | lib/authUtils.ts:1-10 | distinct choices give distinct names |
| Username.FindsOwnWord | lib/authUtils.ts:1-2 | no word of either list begins another, so the word at the start of a name is found unambiguously |
| Decimal.FromNat | lib/authUtils.ts:10 | a number prints as a canonical decimal: non-empty digits with no leading zero, and "0" only for zero |
| Decimal.ParseIffFromNat | lib/authUtils.ts:10 | reading a decimal back gives n exactly when the text is n printed |
| Decimal.FromNatInjective | lib/game-utils.ts:207 | distinct numbers print differently |

## Left out

- `updatePhysics`: the delayed respawn at lib/game-utils.ts:174-184 is left out. It is a `setTimeout` callback that runs after the tick. `Spawn.GetSafeSpawn` models the spawn point it would use. When no building qualifies, the source reads `undefined` there and the callback would fail on `spawn.x`. `Spawn.GeneratedSkylineAlwaysSpawns` shows this cannot happen on a generated skyline.
- `updatePhysics`: the `console.log` and the `playSound` calls are left out; they have no effect on state.
- `useWindowSize` is left out; it is a React hook. Its result is the `floorY` parameter.
- `generateSkyline`: the colour strings and the two hue and lightness draws per building are left out. They only decorate.
- `calculateBotInputs`: the unused `dt` parameter is left out. The `aggression` default of 0.01 belongs to the caller, so `aggression` is always passed.
- `BotAi.Decide`: one draw stands for both the punch draw and the random jump draw. They lie on exclusive branches, so each is the first draw its branch takes.
- `validateAge`: parsing the date string with `new Date` is left out. It depends on the time zone, so the model takes an already-parsed date, or `Unparseable` for text that names no date.
- `createGuestSession` and `checkExistingSession` are left out; they touch cookies, local storage and `btoa`.
- Floating point is left out: rounding, `NaN` and infinities. All arithmetic is on reals. Two comparisons with `NaN` are modelled because the source relies on them. An unreadable date fails the age gate. A missing `stunUntil` makes `Date.now() > me.stunUntil` false (lib/aiLogic.ts:27), so `BotAi.StunOver` takes an `Option` and is false for `None`.
- `Physics.ClimbStep`: the no-overshoot (`Between`) and progress clauses are stated only for 0 < 6·dt ≤ 1, since for a longer tick the source overshoots the ledge. For every dt the contract still fixes y: the remaining offset while climbing, and the ledge on a snap.
- `Physics.WallScan`: when several walls push the fighter in one scan, its contract says only that the fighter ends flush against the face of some building. `Physics.PushOnFirstContact` pins the face when a single wall pushes it.
- `Physics.LandScan`: its own contract names only a roof the fighter lies over, at or above its feet. `Physics.LandOnSoleCatcher` pins the roof when one roof catches the fighter and no later roof catches it again, and `Physics.LandsOnSoleRoof` carries that to the tick. When a later roof re-catches the snapped fighter, the last one in order decides where it stands. No lemma states that case.
- `Physics.Settle`: a roof catch is tied only to a roof the fighter lies over, at or above its feet, as in `Physics.LandScan`. The sole-catcher case is stated for the whole tick by `Physics.LandsOnSoleRoof`.
- `Physics.LandsOnRoofOver`: states the same weaker fact for the tick. `Physics.LandsOnSoleRoof` is the exact form.
- The wave director, the combat resolver and the per-frame orchestrator are not in any of the modelled files, so they are not part of this model. The React components, audio, asset loading, stores and game-loop hooks are UI and I/O, and are not part of this model either.

=== FILE: age.dfy ===
/** The age gate of the sign-up form (lib/authUtils.ts, validateAge): a user
    may sign up from their twelfth birthday on. Dates are compared as
    (year, month, day) triples with the month counted from 0, as JavaScript's
    `getMonth` counts it. */
module AgeGate {
  /** A calendar date as the `Date` getters report it. */
  datatype Date = Date(year: int, month: int, day: int)

  /** The date-of-birth field: empty, text that names no date, or a date. */
  datatype DobInput = Blank | Unparseable | Parsed(date: Date)

  const MIN_AGE: int := 12

  /** Calendar order: by year, then month, then day. */
  predicate OnOrBefore(a: Date, b: Date) {
    a.year < b.year
    || (a.year == b.year && (a.month < b.month || (a.month == b.month && a.day <= b.day)))
  }

  /** The same month and day, n years later. */
  function Anniversary(birth: Date, n: int): Date {
    Date(birth.year + n, birth.month, birth.day)
  }

  /** The year difference, one less while today's (month, day) is still
      before the birthday's. */
  function Age(birth: Date, today: Date): (age: int)
    ensures OnOrBefore(Anniversary(birth, age), today)
    ensures !OnOrBefore(Anniversary(birth, age + 1), today)
  {
    var years := today.year - birth.year;
    var m := today.month - birth.month;
    if m < 0 || (m == 0 && today.day < birth.day) then years - 1 else years
  }

  /** Later anniversaries come later. */
  lemma AnniversaryMonotone(birth: Date, m: int, n: int)
    requires m <= n
    ensures OnOrBefore(Anniversary(birth, m), Anniversary(birth, n))
  {
  }

  lemma OnOrBeforeTransitive(a: Date, b: Date, c: Date)
    requires OnOrBefore(a, b) && OnOrBefore(b, c)
    ensures OnOrBefore(a, c)
  {
  }

  /** validateAge: false for an empty field or an unreadable date; otherwise
      true exactly when today is on or after the twelfth birthday. */
  function ValidateAge(dob: DobInput, today: Date): (ok: bool)
    ensures ok <==> dob.Parsed? && OnOrBefore(Anniversary(dob.date, MIN_AGE), today)
  {
    match dob
    case Blank => false
    case Unparseable => false
    case Parsed(birth) =>
      var age := Age(birth, today);
      if age >= MIN_AGE then
        AnniversaryMonotone(birth, MIN_AGE, age);
        OnOrBeforeTransitive(Anniversary(birth, MIN_AGE), Anniversary(birth, age), today);
        true
      else
        AnniversaryMonotone(birth, age + 1, MIN_AGE);
        false
  }

  /** Once old enough, old enough on every later day. */
  lemma StaysValid(birth: Date, today: Date, later: Date)
    requires ValidateAge(Parsed(birth), today) && OnOrBefore(today, later)
    ensures ValidateAge(Parsed(birth), later)
  {
    OnOrBeforeTransitive(Anniversary(birth, MIN_AGE), today, later);
  }

  /** Whoever is old enough, anyone born on or before them is too. */
  lemma EarlierBirthValid(birth: Date, earlier: Date, today: Date)
    requires ValidateAge(Parsed(birth), today) && OnOrBefore(earlier, birth)
    ensures ValidateAge(Parsed(earlier), today)
  {
    assert OnOrBefore(Anniversary(earlier, MIN_AGE), Anniversary(birth, MIN_AGE));
    OnOrBeforeTransitive(Anniversary(earlier, MIN_AGE), Anniversary(birth, MIN_AGE), today);
  }
}

=== FILE: animation.dfy ===
/** The animation tag the renderer plays for a fighter: a fixed priority
    ladder over the fighter's state (lib/game-utils.ts, getAnim). */
module Animation {
  import opened Common
  import opened Entities

  const RUN_THRESHOLD: real := 350.0
  const WALK_THRESHOLD: real := 10.0

  datatype Anim = Death | Climb | Attack(tag: string) | Jump | Run | Walk | Idle

  /** The tag string the renderer looks up. */
  function Name(a: Anim): string {
    match a
    case Death => "DEATH"
    case Climb => "CLIMB"
    case Attack(tag) => tag
    case Jump => "JUMP"
    case Run => "RUN"
    case Walk => "WALK"
    case Idle => "animation0"
  }

  /** An attack tag is shown while its window is open and the tag is truthy
      (neither null nor the empty string). */
  predicate AttackShowing(p: Fighter, now: real) {
    now < p.attackUntil && p.attackAnim.Some? && p.attackAnim.value != ""
  }

  /** None of the first four rungs applies, so speed decides. */
  predicate SpeedDecides(p: Fighter, now: real) {
    !p.isDead && !p.isClimbing && !AttackShowing(p, now) && !(!p.isGrounded && p.vy < 0.0)
  }

  function GetAnim(p: Fighter, now: real): (a: Anim)
    ensures a.Death? <==> p.isDead
    ensures a.Climb? <==> !p.isDead && p.isClimbing
    ensures a.Attack? <==> !p.isDead && !p.isClimbing && AttackShowing(p, now)
    ensures a.Attack? ==> p.attackAnim == Some(a.tag) && a.tag != ""
    ensures a.Jump? <==> !p.isDead && !p.isClimbing && !AttackShowing(p, now) && !p.isGrounded && p.vy < 0.0
    ensures a.Run? <==> SpeedDecides(p, now) && Abs(p.vx) > RUN_THRESHOLD
    ensures a.Walk? <==> SpeedDecides(p, now) && WALK_THRESHOLD < Abs(p.vx) <= RUN_THRESHOLD
    ensures a.Idle? <==> SpeedDecides(p, now) && Abs(p.vx) <= WALK_THRESHOLD
  {
    if p.isDead then Death
    else if p.isClimbing then Climb
    else if AttackShowing(p, now) then Attack(p.attackAnim.value)
    else if !p.isGrounded && p.vy < 0.0 then Jump
    else if Abs(p.vx) > RUN_THRESHOLD then Run
    else if Abs(p.vx) > WALK_THRESHOLD then Walk
    else Idle
  }

  /** The ladder never looks at the death-animation flag: a dying fighter
      that is not yet dead animates exactly as a live one. */
  lemma IgnoresDying(p: Fighter, now: real, dying: bool)
    ensures GetAnim(p.(isDying := dying), now) == GetAnim(p, now)
  {
  }

  /** Rank of the locomotion tags, slowest first. */
  function Pace(a: Anim): nat {
    match a
    case Run => 2
    case Walk => 1
    case _ => 0
  }

  /** Among fighters that differ only in horizontal speed, a faster one never
      shows a slower locomotion tag. */
  lemma PaceMonotone(p: Fighter, now: real, vx: real)
    requires Abs(p.vx) <= Abs(vx)
    ensures Pace(GetAnim(p, now)) <= Pace(GetAnim(p.(vx := vx), now))
  {
  }
}

=== FILE: botai.dfy ===
/** The enemy AI (lib/aiLogic.ts, calculateBotInputs): a pure decision from
    the enemy, its target, the skyline, the clock and random draws to six
    input flags, through a fixed list of early returns. */
module BotAi {
  import opened Common
  import opened Entities

  const SIGHT_RANGE: real := 800.0
  const ATTACK_RANGE: real := 30.0
  /** Vertical tolerance of the melee branch. */
  const MELEE_HEIGHT: real := 50.0
  const LOW_HP_FRACTION: real := 0.3
  const DEFAULT_MAX_HP: real := 100.0
  /** A hurt elite or boss in another realm backs off only within this distance. */
  const RETREAT_RANGE: real := 300.0
  /** Horizontal dead zone of the chase. */
  const CHASE_DEAD_ZONE: real := 30.0
  const BASE_ATTACK_CHANCE: real := 0.01
  const LOOK_AHEAD: real := 20.0
  /** A roof within this height of the feet counts as a platform ahead. */
  const PLATFORM_TOLERANCE: real := 25.0
  /** Jump at a wall ahead only when the target is this much lower. */
  const WALL_JUMP_DROP: real := 50.0
  const RANDOM_JUMP_CUTOFF: real := 0.995
  /** A climbing enemy jumps off when the target is this much lower. */
  const CLIMB_RELEASE_DROP: real := 100.0

  datatype BotInputs = BotInputs(left: bool, right: bool, jump: bool, punch: bool, kick: bool, rift: bool)

  const Idle: BotInputs := BotInputs(false, false, false, false, false, false)

  /** `maxHp || 100`: a missing or zero maximum falls back to 100. */
  function MaxHpOrDefault(e: Enemy): real {
    match e.maxHp
    case None => DEFAULT_MAX_HP
    case Some(m) => if m == 0.0 then DEFAULT_MAX_HP else m
  }

  predicate IsLowHp(e: Enemy) {
    e.body.hp < MaxHpOrDefault(e) * LOW_HP_FRACTION
  }

  predicate IsSmart(e: Enemy) {
    e.variant == Some(Elite) || e.variant == Some(Boss)
  }

  /** A hurt elite or boss: the variant that evades through the rift. */
  predicate Evasive(e: Enemy) {
    IsSmart(e) && IsLowHp(e)
  }

  /** `now > stunUntil`; comparing with a missing timestamp is false. */
  predicate StunOver(e: Enemy, now: real) {
    e.stunUntil.Some? && now > e.stunUntil.value
  }

  /** A truthy (non-zero) attack deadline that has not passed yet. */
  predicate MidAttack(f: Fighter, now: real) {
    f.attackUntil != 0.0 && now < f.attackUntil
  }

  /** `sqrt(dx*dx + dy*dy) > SIGHT_RANGE`, compared on squares. */
  predicate OutOfSight(dx: real, dy: real) {
    dx * dx + dy * dy > SIGHT_RANGE * SIGHT_RANGE
  }

  predicate InMelee(dx: real, dy: real) {
    Abs(dx) < ATTACK_RANGE && Abs(dy) < MELEE_HEIGHT
  }

  function Dx(me: Enemy, target: Fighter): real {
    target.x - me.body.x
  }

  function Dy(me: Enemy, target: Fighter): real {
    target.y - me.body.y
  }

  predicate BothAlive(me: Enemy, target: Fighter) {
    !me.body.isDead && !target.isDead
  }

  predicate SameRealm(me: Enemy, target: Fighter) {
    me.body.realm == target.realm
  }

  /** Both alive, same realm, not mid-attack and the target in sight: the
      enemy engages, in melee or by moving. */
  predicate Engaged(me: Enemy, target: Fighter, now: real) {
    && BothAlive(me, target) && SameRealm(me, target)
    && !MidAttack(me.body, now) && !OutOfSight(Dx(me, target), Dy(me, target))
  }

  predicate MeleeBranch(me: Enemy, target: Fighter, now: real) {
    Engaged(me, target, now) && InMelee(Dx(me, target), Dy(me, target))
  }

  predicate MoveBranch(me: Enemy, target: Fighter, now: real) {
    Engaged(me, target, now) && !InMelee(Dx(me, target), Dy(me, target))
  }

  /** The x probed for terrain: 20 beyond the leading edge. */
  function LookAheadX(f: Fighter): real {
    if f.facingRight then f.x + f.width + LOOK_AHEAD else f.x - LOOK_AHEAD
  }

  predicate Within(x: real, b: Building) {
    b.x < x < b.x + b.width
  }

  /** A building at the look-ahead x whose roof is above the enemy's feet. */
  predicate WallAhead(f: Fighter, bs: seq<Building>, floorY: real) {
    exists b :: b in bs && Within(LookAheadX(f), b) && f.y + f.height > floorY - b.height
  }

  /** A building at the look-ahead x whose roof is within 25 of the enemy's feet. */
  predicate PlatformAhead(f: Fighter, bs: seq<Building>, floorY: real) {
    exists b :: b in bs && Within(LookAheadX(f), b) && Abs(f.y + f.height - (floorY - b.height)) < PLATFORM_TOLERANCE
  }

  /** The melee branch: maybe punch or kick when grounded, and turn to face
      the target. The first draw decides the punch, the second the kick. */
  function Melee(f: Fighter, dx: real, rolls: seq<real>, aggression: real): BotInputs
    requires |rolls| >= 2
  {
    var chance := BASE_ATTACK_CHANCE + aggression;
    var punch := f.isGrounded && rolls[0] < chance;
    var kick := f.isGrounded && !(rolls[0] < chance) && rolls[1] < chance;
    Idle.(punch := punch, kick := kick,
          right := dx > 0.0 && !f.facingRight,
          left := dx < 0.0 && f.facingRight)
  }

  /** The movement branch: chase outside a dead zone, and jump over gaps,
      up walls when the target is lower, at random, or off a climb. */
  function Move(f: Fighter, dx: real, dy: real, bs: seq<Building>, rolls: seq<real>, floorY: real): BotInputs
    requires |rolls| >= 1
  {
    var groundJump := f.isGrounded &&
      (!PlatformAhead(f, bs, floorY)
       || (WallAhead(f, bs, floorY) && dy > WALL_JUMP_DROP)
       || rolls[0] > RANDOM_JUMP_CUTOFF);
    var climbJump := f.isClimbing && dy > CLIMB_RELEASE_DROP;
    Idle.(right := dx > CHASE_DEAD_ZONE, left := dx < -CHASE_DEAD_ZONE, jump := groundJump || climbJump)
  }

  /** calculateBotInputs, with `Date.now()` as `now`, the window height as
      `floorY` and the `Math.random()` draws, in the order they are taken, as
      `rolls`. */
  function Decide(me: Enemy, target: Fighter, bs: seq<Building>, now: real,
                  rolls: seq<real>, floorY: real, aggression: real): (r: BotInputs)
    requires |rolls| >= 2
    // Dead on either side: no input at all.
    ensures !BothAlive(me, target) ==> r == Idle
    // Never both directions, never both attacks.
    ensures !(r.left && r.right)
    ensures !(r.punch && r.kick)
    // Different realms, not an evasive variant: only the rift switch.
    ensures BothAlive(me, target) && !SameRealm(me, target) && !Evasive(me) ==> r == Idle.(rift := true)
    // Different realms, evasive: back away from the target when it is close.
    ensures BothAlive(me, target) && !SameRealm(me, target) && Evasive(me) ==>
      && !r.rift && !r.punch && !r.kick && !r.jump
      && (r.left <==> 0.0 < Dx(me, target) < RETREAT_RANGE)
      && (r.right <==> -RETREAT_RANGE < Dx(me, target) <= 0.0)
    // Same realm: the rift is requested exactly by an evasive enemy out of stun.
    ensures BothAlive(me, target) && SameRealm(me, target) ==> (r.rift <==> Evasive(me) && StunOver(me, now))
    // Mid-attack or target out of sight: nothing but that rift request.
    ensures BothAlive(me, target) && SameRealm(me, target)
            && (MidAttack(me.body, now) || OutOfSight(Dx(me, target), Dy(me, target))) ==>
      !r.left && !r.right && !r.jump && !r.punch && !r.kick
    // Attacks happen only in melee range, on the ground, without a jump.
    ensures r.punch || r.kick ==> MeleeBranch(me, target, now) && me.body.isGrounded && !r.jump
    ensures r.punch <==> MeleeBranch(me, target, now) && me.body.isGrounded && rolls[0] < BASE_ATTACK_CHANCE + aggression
    ensures r.kick <==> MeleeBranch(me, target, now) && me.body.isGrounded
                        && rolls[0] >= BASE_ATTACK_CHANCE + aggression && rolls[1] < BASE_ATTACK_CHANCE + aggression
    // In melee the enemy only turns to face the target.
    ensures MeleeBranch(me, target, now) ==>
      && (r.right <==> Dx(me, target) > 0.0 && !me.body.facingRight)
      && (r.left <==> Dx(me, target) < 0.0 && me.body.facingRight)
    // Otherwise it chases and jumps over terrain.
    ensures r.jump ==> MoveBranch(me, target, now)
    ensures MoveBranch(me, target, now) ==>
      && (r.right <==> Dx(me, target) > CHASE_DEAD_ZONE)
      && (r.left <==> Dx(me, target) < -CHASE_DEAD_ZONE)
      && (r.jump <==>
            (me.body.isGrounded &&
               (!PlatformAhead(me.body, bs, floorY)
                || (WallAhead(me.body, bs, floorY) && Dy(me, target) > WALL_JUMP_DROP)
                || rolls[0] > RANDOM_JUMP_CUTOFF))
            || (me.body.isClimbing && Dy(me, target) > CLIMB_RELEASE_DROP))
  {
    if !BothAlive(me, target) then Idle
    else
      var rift := Evasive(me) && SameRealm(me, target) && StunOver(me, now);
      if !SameRealm(me, target) then
        if Evasive(me) then
          var dx := Dx(me, target);
          if Abs(dx) < RETREAT_RANGE then
            if dx > 0.0 then Idle.(left := true) else Idle.(right := true)
          else Idle
        else Idle.(rift := true)
      else if MidAttack(me.body, now) then Idle.(rift := rift)
      else
        var dx := Dx(me, target);
        var dy := Dy(me, target);
        if OutOfSight(dx, dy) then Idle.(rift := rift)
        else if InMelee(dx, dy) then Melee(me.body, dx, rolls, aggression).(rift := rift)
        else Move(me.body, dx, dy, bs, rolls, floorY).(rift := rift)
  }
}

=== FILE: common.dfy ===
/** Small shared vocabulary: an optional value, absolute value over reals,
    and the way the game turns a uniform random draw into an index. */
module Common {

  /** JavaScript `null`/`undefined` for a field that may be absent. */
  datatype Option<+T> = None | Some(value: T)

  function Abs(x: real): (r: real)
    ensures r >= 0.0
    ensures r == x || r == -x
  {
    if x < 0.0 then -x else x
  }

  /** `m` lies on the closed segment between `a` and `b`, in either orientation. */
  predicate Between(a: real, m: real, b: real) {
    (a <= m <= b) || (b <= m <= a)
  }

  /** A value `Math.random()` can return. */
  predicate IsDraw(r: real) {
    0.0 <= r < 1.0
  }

  /** `Math.floor(r * n)` for a draw `r`: a uniformly chosen index below `n`. */
  function Pick(r: real, n: nat): (i: nat)
    requires IsDraw(r) && n > 0
    ensures i < n
    ensures (i as real) <= r * (n as real) < (i as real) + 1.0
  {
    assert r * (n as real) < n as real;
    (r * (n as real)).Floor
  }
}

=== FILE: decimal.dfy ===
/** Decimal rendering of natural numbers, as JavaScript template literals
    print them (`${i}`), together with the parser that undoes it. */
module Decimal {
  import opened Common

  predicate IsDigit(c: char) {
    '0' <= c <= '9'
  }

  predicate AllDigits(s: string) {
    forall k :: 0 <= k < |s| ==> IsDigit(s[k])
  }

  /** A numeral as JavaScript prints one: non-empty, digits only, no leading zero. */
  predicate Canonical(s: string) {
    |s| > 0 && AllDigits(s) && (s[0] == '0' ==> |s| == 1)
  }

  function DigitChar(d: nat): (c: char)
    requires d < 10
    ensures IsDigit(c)
  {
    ('0' as int + d) as char
  }

  function DigitValue(c: char): (d: nat)
    requires IsDigit(c)
    ensures d < 10
  {
    (c as int - '0' as int) as nat
  }

  /** The numeral of `n`, most significant digit first. */
  function FromNat(n: nat): (s: string)
    ensures Canonical(s)
    ensures n == 0 <==> s == "0"
  {
    if n < 10 then [DigitChar(n)]
    else
      var prefix := FromNat(n / 10);
      prefix + [DigitChar(n % 10)]
  }

  /** The value a string of digits denotes. */
  function Value(s: string): nat
    requires AllDigits(s)
  {
    if |s| == 0 then 0
    else Value(s[..|s| - 1]) * 10 + DigitValue(s[|s| - 1])
  }

  /** Reads a canonical numeral; anything else is rejected. */
  function Parse(s: string): (r: Option<nat>)
    ensures r.Some? <==> Canonical(s)
  {
    if Canonical(s) then Some(Value(s)) else None
  }

  lemma {:induction false} ValueOfFromNat(n: nat)
    ensures Value(FromNat(n)) == n
  {
    var s := FromNat(n);
    if n < 10 {
      assert s[..|s| - 1] == [];
    } else {
      var prefix := FromNat(n / 10);
      assert s[..|s| - 1] == prefix;
      ValueOfFromNat(n / 10);
    }
  }

  lemma {:induction false} LeadingDigitPositive(s: string)
    requires AllDigits(s) && |s| > 0 && s[0] != '0'
    ensures Value(s) >= 1
  {
    if |s| > 1 {
      var prefix := s[..|s| - 1];
      assert prefix[0] == s[0];
      LeadingDigitPositive(prefix);
    }
  }

  lemma {:induction false} FromNatOfValue(s: string)
    requires Canonical(s)
    ensures FromNat(Value(s)) == s
  {
    if |s| > 1 {
      var prefix := s[..|s| - 1];
      assert prefix[0] == s[0];
      LeadingDigitPositive(prefix);
      FromNatOfValue(prefix);
      var v := Value(s);
      assert v / 10 == Value(prefix);
      assert v % 10 == DigitValue(s[|s| - 1]);
      assert s == prefix + [s[|s| - 1]];
    } else {
      assert s == [s[0]];
    }
  }

  /** Printing and parsing are mutually inverse on canonical numerals. */
  lemma ParseIffFromNat(s: string, n: nat)
    ensures Parse(s) == Some(n) <==> s == FromNat(n)
  {
    if s == FromNat(n) {
      ValueOfFromNat(n);
    }
    if Parse(s) == Some(n) {
      FromNatOfValue(s);
    }
  }

  /** Distinct numbers print as distinct numerals. */
  lemma FromNatInjective(m: nat, n: nat)
    requires FromNat(m) == FromNat(n)
    ensures m == n
  {
    ValueOfFromNat(m);
    ValueOfFromNat(n);
  }
}

=== FILE: entities.dfy ===
/** The records the simulation works on: buildings of the rooftop skyline,
    fighters (player and enemies share one shape) and the enemy-only extras
    the AI reads. Positions are screen coordinates: y grows downwards, and a
    building of height h has its roof at `floorY - h`. */
module Entities {
  import opened Common

  /** The two parallel worlds; also the `type` tag of a building. */
  datatype Realm = Normal | Rift

  function RealmName(r: Realm): string {
    match r
    case Normal => "normal"
    case Rift => "rift"
  }

  /** One building of a skyline; the decorative colour string and the
      transient shake timestamp are not modelled. */
  datatype Building = Building(
    id: string,
    x: real,
    y: real,
    width: real,
    height: real,
    kind: Realm
  )

  /** The mutable per-entity record, as a value. */
  datatype Fighter = Fighter(
    x: real,
    y: real,
    vx: real,
    vy: real,
    width: real,
    height: real,
    isGrounded: bool,
    isClimbing: bool,
    climbTargetY: Option<real>,
    climbLockX: Option<real>,
    isDead: bool,
    isDying: bool,
    facingRight: bool,
    realm: Realm,
    hp: real,
    attackAnim: Option<string>,
    attackUntil: real
  )

  datatype Variant = Grunt | Elite | Boss

  /** An enemy as its AI sees it: the shared fighter record plus the
      optional enemy-only fields. */
  datatype Enemy = Enemy(
    body: Fighter,
    variant: Option<Variant>,
    maxHp: Option<real>,
    stunUntil: Option<real>
  )

  /** Size of the player's box, used by the spawn-point rule. */
  const PLAYER_W: real := 30.0
  const PLAYER_H: real := 70.0
}

=== FILE: physics.dfy ===
/** One physics tick of a fighter against a skyline (lib/game-utils.ts,
    updatePhysics, without its delayed respawn). The step is a pure function:
    the fighter record it returns is the record the source mutates in place. */
module Physics {
  import opened Common
  import opened Entities

  const CLIMB_SPEED: real := 6.0
  const WALL_SLIDE_SPEED: real := 50.0
  const GRAVITY: real := 2000.0
  /** How far below the floor a fighter may fall before it counts as dead. */
  const FALL_OUT_MARGIN: real := 200.0
  /** Half-width of the band around a wall face that counts as touching it. */
  const EDGE_REACH: real := 12.0
  /** Depth below a roof within which a falling fighter is snapped onto it. */
  const LANDING_DEPTH: real := 40.0

  function Feet(p: Fighter): real {
    p.y + p.height
  }

  function RoofY(b: Building, floorY: real): real {
    floorY - b.height
  }

  /** `x` puts a box of width `w` flush against the left or right face of `b`. */
  predicate AtWallFace(x: real, w: real, b: Building) {
    x == b.x - w || x == b.x + b.width
  }

  /** The fields no physics step ever writes. */
  predicate SameIdentity(p: Fighter, q: Fighter) {
    && q.width == p.width && q.height == p.height
    && q.isDying == p.isDying && q.facingRight == p.facingRight
    && q.realm == p.realm && q.hp == p.hp
    && q.attackAnim == p.attackAnim && q.attackUntil == p.attackUntil
  }

  /** `q` differs from `p` at most in its vertical state: y, vy and the
      grounded and dead flags. */
  predicate VerticalOnly(p: Fighter, q: Fighter) {
    && SameIdentity(p, q)
    && q.x == p.x && q.vx == p.vx
    && q.isClimbing == p.isClimbing && q.climbTargetY == p.climbTargetY && q.climbLockX == p.climbLockX
  }

  /** A fighter whose tick is the scripted climb towards a ledge. */
  predicate ClimbingToLedge(p: Fighter) {
    p.isClimbing && p.climbTargetY.Some?
  }

  /** A live fighter whose tick is ordinary free movement. */
  predicate FreeMover(p: Fighter) {
    !p.isDead && !ClimbingToLedge(p)
  }

  // ---------------------------------------------------------------------
  // Climbing
  // ---------------------------------------------------------------------

  /** Moving a fraction `k` in (0, 1] of the way across `d` stays on the segment [0, d]. */
  lemma FractionBetween(d: real, k: real)
    ensures 0.0 < k <= 1.0 ==> Between(0.0, d * k, d)
  {
    if k <= 0.0 || k > 1.0 {
    } else if d >= 0.0 {
      assert d * k <= d * 1.0;
    } else {
      assert d * k >= d * 1.0;
    }
  }

  /** Scaling by a non-negative factor scales the distance from zero. */
  lemma AbsScale(c: real, a: real)
    requires c >= 0.0
    ensures Abs(c * a) == c * Abs(a)
  {
    if a < 0.0 {
      assert c * a <= 0.0;
      assert -(c * a) == c * -a;
    } else {
      assert c * a >= 0.0;
    }
  }

  /** A shrink by the factor 1 - k that leaves at least 2 removes at least 2k. */
  lemma ContractionGain(d0: real, d1: real, k: real)
    requires 0.0 < k <= 1.0 && d0 >= 0.0
    requires d1 == (1.0 - k) * d0 && d1 >= 2.0
    ensures d0 - d1 >= 2.0 * k
  {
    assert d0 - d1 == k * d0;
    assert d0 >= 2.0 by {
      assert (1.0 - k) * d0 <= d0;
    }
    assert k * d0 >= k * 2.0;
  }

  /** The arithmetic of one climbing tick that does not arrive: the distance
      to the ledge shrinks by the factor 1 - k yet stays at least 2, so at
      least 2k of it is covered. */
  lemma ClimbGain(y0: real, y1: real, t: real, k: real)
    requires y1 - t == Remainder(y0, t, k)
    ensures 0.0 < k <= 1.0 && Abs(y1 - t) >= 2.0 ==> Abs(y1 - t) <= Abs(y0 - t) - 2.0 * k
  {
    if 0.0 < k <= 1.0 && Abs(y1 - t) >= 2.0 {
      var d0 := Abs(y0 - t);
      var d1 := Abs(y1 - t);
      AbsScale(1.0 - k, y0 - t);
      ContractionGain(d0, d1, k);
    }
  }

  /** The signed offset from the ledge left after moving the fraction k of
      the way there from y0. */
  function Remainder(y0: real, t: real, k: real): real {
    (1.0 - k) * (y0 - t)
  }

  /** Moving the fraction k of the way from y0 to t leaves the fraction 1 - k
      of the distance still to go. */
  lemma Interpolation(y0: real, t: real, k: real)
    ensures y0 + (t - y0) * k - t == Remainder(y0, t, k)
  {
    assert (1.0 - k) * (y0 - t) == (y0 - t) - k * (y0 - t);
  }

  /** Interpolates towards the ledge and snaps once within 2 of it. */
  function ClimbStep(p: Fighter, dt: real): (r: Fighter)
    requires ClimbingToLedge(p)
    ensures r.x == p.x && r.vx == p.vx && r.isDead == p.isDead && SameIdentity(p, r)
    ensures r.isClimbing ==> VerticalOnly(p, r) && r.vy == p.vy && r.isGrounded == p.isGrounded && Abs(r.y - p.climbTargetY.value) >= 2.0
    ensures r.isClimbing ==> r.y - p.climbTargetY.value == Remainder(p.y, p.climbTargetY.value, CLIMB_SPEED * dt)
    // It keeps climbing exactly when the interpolated y is still 2 or more from the ledge.
    ensures r.isClimbing <==> Abs(Remainder(p.y, p.climbTargetY.value, CLIMB_SPEED * dt)) >= 2.0
    ensures !r.isClimbing ==>
      && r.y == p.climbTargetY.value && r.isGrounded && r.vy == 0.0
      && r.climbTargetY == None && r.climbLockX == None
    ensures 0.0 < CLIMB_SPEED * dt <= 1.0 ==> Between(p.y, r.y, p.climbTargetY.value)
    ensures 0.0 < CLIMB_SPEED * dt <= 1.0 && r.isClimbing ==>
      Abs(r.y - p.climbTargetY.value) <= Abs(p.y - p.climbTargetY.value) - 2.0 * (CLIMB_SPEED * dt)
  {
    var t := p.climbTargetY.value;
    var k := CLIMB_SPEED * dt;
    var d := t - p.y;
    var y := p.y + d * k;
    Interpolation(p.y, t, k);
    FractionBetween(d, k);
    ClimbGain(p.y, y, t, k);
    if Abs(y - t) < 2.0 then
      p.(y := t, isClimbing := false, isGrounded := true, vy := 0.0,
         climbTargetY := None, climbLockX := None)
    else
      p.(y := y)
  }

  // ---------------------------------------------------------------------
  // Free movement: integration, wall scan, landing scan
  // ---------------------------------------------------------------------

  /** x first, then gravity, then y with the updated vertical speed. */
  function Integrate(p: Fighter, dt: real): (q: Fighter)
    ensures q.x == p.x + p.vx * dt && q.vx == p.vx
    ensures q.vy == p.vy + GRAVITY * dt && q.y == p.y + q.vy * dt
    // Only the position and the vertical speed move.
    ensures q == p.(x := q.x, vy := q.vy, y := q.y)
    // Semi-implicit: the fall over the tick already uses the new speed, so
    // y gains GRAVITY·dt² on top of the old speed's vy·dt.
    ensures q.y == p.y + p.vy * dt + GRAVITY * dt * dt
  {
    var vy := p.vy + GRAVITY * dt;
    p.(x := p.x + p.vx * dt, vy := vy, y := p.y + vy * dt)
  }

  /** `r` is `q` caught on the ledge of `b`: climbing towards the roof,
      motion stopped, x locked flush against a wall face of `b`, with the
      feet in the grab band around the roof and nothing else changed. */
  predicate LedgeGrab(q: Fighter, r: Fighter, b: Building, floorY: real) {
    && !q.isGrounded && !q.isClimbing
    && r == q.(isClimbing := true, vx := 0.0, vy := 0.0,
               climbTargetY := Some(RoofY(b, floorY) - q.height),
               climbLockX := Some(r.x), x := r.x)
    && AtWallFace(r.x, q.width, b)
    && RoofY(b, floorY) - 10.0 <= Feet(r) <= RoofY(b, floorY) + 60.0
  }

  /** The fighter's box reaches into `b` from the side, with its feet below the roof. */
  predicate Overlaps(q: Fighter, b: Building, floorY: real) {
    q.x < b.x + b.width && q.x + q.width > b.x && Feet(q) > RoofY(b, floorY)
  }

  /** The fighter's right side is within 12 of `b`'s left face. */
  predicate NearLeftFace(q: Fighter, b: Building) {
    Abs(q.x + q.width - b.x) < EDGE_REACH
  }

  /** The fighter's left side is within 12 of `b`'s right face. */
  predicate NearRightFace(q: Fighter, b: Building) {
    Abs(q.x - (b.x + b.width)) < EDGE_REACH
  }

  /** The feet are between 10 above and 60 below `b`'s roof. */
  predicate InGrabBand(q: Fighter, b: Building, floorY: real) {
    RoofY(b, floorY) - 10.0 <= Feet(q) <= RoofY(b, floorY) + 60.0
  }

  predicate Airborne(q: Fighter) {
    !q.isGrounded && !q.isClimbing
  }

  /** The x that puts the fighter flush against the face it is near: the
      left face when near it, the right face otherwise. */
  function WallX(q: Fighter, b: Building): real {
    if NearLeftFace(q, b) then b.x - q.width else b.x + b.width
  }

  datatype Contact = Clear | Grab(grabbed: Fighter) | Wall(pushed: Fighter)

  /** What one building does to a fighter in the wall scan. */
  function ContactWith(q: Fighter, b: Building, floorY: real): (c: Contact)
    // A grab happens exactly for an airborne fighter overlapping the
    // building near one of its faces with the feet in the grab band.
    ensures c.Grab? <==>
      && Overlaps(q, b, floorY) && (NearLeftFace(q, b) || NearRightFace(q, b))
      && InGrabBand(q, b, floorY) && Airborne(q)
    // Otherwise a face pushes the fighter exactly when its feet are more
    // than 10 below the roof.
    ensures c.Wall? <==>
      && Overlaps(q, b, floorY) && (NearLeftFace(q, b) || NearRightFace(q, b))
      && !(InGrabBand(q, b, floorY) && Airborne(q))
      && Feet(q) > RoofY(b, floorY) + 10.0
    ensures c.Grab? ==> LedgeGrab(q, c.grabbed, b, floorY) && c.grabbed.x == WallX(q, b)
    ensures c.Wall? ==> c.pushed == q.(x := WallX(q, b), vx := 0.0) && AtWallFace(c.pushed.x, q.width, b)
  {
    if !Overlaps(q, b, floorY) || !(NearLeftFace(q, b) || NearRightFace(q, b)) then Clear
    else if InGrabBand(q, b, floorY) && Airborne(q) then
      var wallX := WallX(q, b);
      Grab(q.(isClimbing := true, vx := 0.0, vy := 0.0,
              climbTargetY := Some(RoofY(b, floorY) - q.height), climbLockX := Some(wallX), x := wallX))
    else if Feet(q) > RoofY(b, floorY) + 10.0 then
      Wall(q.(vx := 0.0, x := WallX(q, b)))
    else Clear
  }

  datatype Scan = Grabbed(fighter: Fighter) | Scanned(fighter: Fighter, touching: bool)

  /** A grab does not depend on where the fighter stood or how fast it moved
      sideways before it, so a wall push earlier in the scan keeps it a grab
      of the fighter the scan started from. */
  lemma GrabAfterPush(q: Fighter, w: Fighter, g: Fighter, b: Building, floorY: real)
    requires w == q.(x := w.x, vx := 0.0)
    requires LedgeGrab(w, g, b, floorY)
    ensures LedgeGrab(q, g, b, floorY)
  {
  }

  /** The wall scan over the buildings in order. A grab ends the whole tick;
      a wall contact stops horizontal motion and moves the fighter flush
      against that wall, and later buildings see the moved fighter. */
  function WallScan(q: Fighter, bs: seq<Building>, floorY: real): (s: Scan)
    ensures s.Grabbed? ==> exists b :: b in bs && LedgeGrab(q, s.fighter, b, floorY)
    ensures s.Scanned? && !s.touching ==> s.fighter == q
    ensures s.Scanned? && s.touching ==>
      && s.fighter == q.(x := s.fighter.x, vx := 0.0)
      && exists b :: b in bs && AtWallFace(s.fighter.x, q.width, b)
    // The scan neither grabs nor touches exactly when no building is in contact.
    ensures s.Scanned? && !s.touching <==> forall b :: b in bs ==> ContactWith(q, b, floorY).Clear?
    decreases |bs|
  {
    if |bs| == 0 then Scanned(q, false)
    else
      assert forall c :: c in bs[1..] ==> c in bs;
      match ContactWith(q, bs[0], floorY)
      case Clear => WallScan(q, bs[1..], floorY)
      case Grab(g) => Grabbed(g)
      case Wall(w) =>
        var rest := WallScan(w, bs[1..], floorY);
        if rest.Grabbed? then
          var b :| b in bs[1..] && LedgeGrab(w, rest.fighter, b, floorY);
          GrabAfterPush(q, w, rest.fighter, b, floorY);
          rest
        else if rest.touching then rest
        else Scanned(rest.fighter, true)
  }

  /** The first building in contact decides how the scan goes: a grab there
      is the scan's result, and a wall there means the scan touched a wall
      or grabbed a ledge further on. */
  lemma {:induction false} FirstContactDecides(q: Fighter, bs: seq<Building>, floorY: real, i: nat)
    requires i < |bs|
    requires forall j :: 0 <= j < i ==> ContactWith(q, bs[j], floorY).Clear?
    ensures ContactWith(q, bs[i], floorY).Grab? ==>
      WallScan(q, bs, floorY) == Grabbed(ContactWith(q, bs[i], floorY).grabbed)
    ensures ContactWith(q, bs[i], floorY).Wall? ==>
      WallScan(q, bs, floorY).Grabbed? || WallScan(q, bs, floorY).touching
    decreases i
  {
    if i > 0 {
      assert ContactWith(q, bs[0], floorY).Clear?;
      assert WallScan(q, bs, floorY) == WallScan(q, bs[1..], floorY);
      forall j | 0 <= j < i - 1
        ensures ContactWith(q, bs[1..][j], floorY).Clear?
      {
        assert bs[1..][j] == bs[j + 1];
      }
      FirstContactDecides(q, bs[1..], floorY, i - 1);
      assert bs[1..][i - 1] == bs[i];
    }
  }

  /** A wall that is the scan's first contact, with no building after it in
      contact with the pushed fighter, decides where the scan leaves the
      fighter: flush against that wall's face, horizontal motion stopped. */
  lemma {:induction false} PushOnFirstContact(q: Fighter, bs: seq<Building>, floorY: real, i: nat)
    requires i < |bs|
    requires forall j :: 0 <= j < i ==> ContactWith(q, bs[j], floorY).Clear?
    requires ContactWith(q, bs[i], floorY).Wall?
    requires forall j :: i < j < |bs| ==> ContactWith(ContactWith(q, bs[i], floorY).pushed, bs[j], floorY).Clear?
    ensures WallScan(q, bs, floorY) == Scanned(ContactWith(q, bs[i], floorY).pushed, true)
    decreases i
  {
    if i == 0 {
      var w := ContactWith(q, bs[0], floorY).pushed;
      forall c | c in bs[1..]
        ensures ContactWith(w, c, floorY).Clear?
      {
        var j :| 0 <= j < |bs[1..]| && bs[1..][j] == c;
        assert bs[1..][j] == bs[j + 1];
      }
      assert WallScan(w, bs[1..], floorY) == Scanned(w, false);
    } else {
      assert ContactWith(q, bs[0], floorY).Clear?;
      assert WallScan(q, bs, floorY) == WallScan(q, bs[1..], floorY);
      forall j | 0 <= j < i - 1
        ensures ContactWith(q, bs[1..][j], floorY).Clear?
      {
        assert bs[1..][j] == bs[j + 1];
      }
      assert bs[1..][i - 1] == bs[i];
      forall j | i - 1 < j < |bs[1..]|
        ensures ContactWith(ContactWith(q, bs[i], floorY).pushed, bs[1..][j], floorY).Clear?
      {
        assert bs[1..][j] == bs[j + 1];
      }
      PushOnFirstContact(q, bs[1..], floorY, i - 1);
    }
  }

  /** Whether the tick's wall scan touched a wall without grabbing a ledge. */
  predicate WallContact(p: Fighter, dt: real, bs: seq<Building>, floorY: real) {
    var s := WallScan(Integrate(p, dt), bs, floorY);
    s.Scanned? && s.touching
  }

  /** Whether the tick's wall scan ended in a ledge grab. */
  predicate GrabsLedge(p: Fighter, dt: real, bs: seq<Building>, floorY: real) {
    WallScan(Integrate(p, dt), bs, floorY).Grabbed?
  }

  /** `b`'s roof catches `q`: horizontal overlap with 2 of slack on each
      side, feet at or at most 40 below the roof, and not rising. Only the
      current position is consulted, not the previous one. */
  predicate LandsOn(q: Fighter, b: Building, floorY: real) {
    && OverRoof(q, b)
    && RoofY(b, floorY) <= Feet(q) < RoofY(b, floorY) + LANDING_DEPTH
    && q.vy >= 0.0
  }

  /** The fighter's box lies over `b`'s roof, with 2 of slack on each side. */
  predicate OverRoof(q: Fighter, b: Building) {
    q.x + q.width > b.x + 2.0 && q.x < b.x + b.width - 2.0
  }

  /** Some building's roof is exactly at `q`'s feet. */
  predicate OnSomeRoof(q: Fighter, bs: seq<Building>, floorY: real) {
    exists b :: b in bs && Feet(q) == RoofY(b, floorY)
  }

  /** `r` stands on the roof of a building of `bs` that `q` lies over, no
      lower than `q`'s feet: the landing snaps up onto a roof that caught it. */
  predicate RoofLanding(q: Fighter, r: Fighter, bs: seq<Building>, floorY: real) {
    Feet(r) <= Feet(q) && exists b :: b in bs && OverRoof(q, b) && Feet(r) == RoofY(b, floorY)
  }

  /** The landing scan over the buildings in order; each landing snaps the
      feet to that roof, and later buildings see the snapped fighter. */
  function LandScan(q: Fighter, bs: seq<Building>, floorY: real): (r: Fighter)
    ensures VerticalOnly(q, r) && r.isDead == q.isDead
    ensures r.isGrounded <==> q.isGrounded || exists b :: b in bs && LandsOn(q, b, floorY)
    ensures r == q || (r.isGrounded && r.vy == 0.0 && OnSomeRoof(r, bs, floorY))
    ensures (forall b :: b in bs ==> !LandsOn(q, b, floorY)) ==> r == q
    // A landing puts the feet on the roof of a building the fighter lies over.
    ensures r != q ==> RoofLanding(q, r, bs, floorY)
    decreases |bs|
  {
    if |bs| == 0 then q
    else
      var b := bs[0];
      assert b in bs;
      assert forall c :: c in bs[1..] ==> c in bs;
      var next := if LandsOn(q, b, floorY) then SnapOnto(q, b, floorY) else q;
      var r := LandScan(next, bs[1..], floorY);
      assert r != q ==> RoofLanding(q, r, bs, floorY) by {
        if r != q && r == next {
          assert OverRoof(q, b) && Feet(r) == RoofY(b, floorY);
        } else if r != q {
          var c :| c in bs[1..] && OverRoof(next, c) && Feet(r) == RoofY(c, floorY);
          assert OverRoof(q, c);
        }
      }
      r
  }

  /** `q` standing at rest on `b`'s roof, as a landing leaves it. */
  function SnapOnto(q: Fighter, b: Building, floorY: real): Fighter {
    q.(y := RoofY(b, floorY) - q.height, vy := 0.0, isGrounded := true)
  }

  /** When one roof catches the fighter and no later roof catches it once it
      stands there, the landing scan leaves it standing on that roof. */
  lemma {:induction false} LandOnSoleCatcher(q: Fighter, bs: seq<Building>, floorY: real, i: nat)
    requires i < |bs|
    requires forall j :: 0 <= j < i ==> !LandsOn(q, bs[j], floorY)
    requires LandsOn(q, bs[i], floorY)
    requires forall j :: i < j < |bs| ==> !LandsOn(SnapOnto(q, bs[i], floorY), bs[j], floorY)
    ensures LandScan(q, bs, floorY) == SnapOnto(q, bs[i], floorY)
    ensures Feet(LandScan(q, bs, floorY)) == RoofY(bs[i], floorY)
    decreases i
  {
    if i == 0 {
      var r := SnapOnto(q, bs[0], floorY);
      forall c | c in bs[1..]
        ensures !LandsOn(r, c, floorY)
      {
        var j :| 0 <= j < |bs[1..]| && bs[1..][j] == c;
        assert bs[1..][j] == bs[j + 1];
      }
      assert LandScan(r, bs[1..], floorY) == r;
    } else {
      assert !LandsOn(q, bs[0], floorY);
      assert LandScan(q, bs, floorY) == LandScan(q, bs[1..], floorY);
      forall j | 0 <= j < i - 1
        ensures !LandsOn(q, bs[1..][j], floorY)
      {
        assert bs[1..][j] == bs[j + 1];
      }
      assert bs[1..][i - 1] == bs[i];
      forall j | i - 1 < j < |bs[1..]|
        ensures !LandsOn(SnapOnto(q, bs[i], floorY), bs[1..][j], floorY)
      {
        assert bs[1..][j] == bs[j + 1];
      }
      LandOnSoleCatcher(q, bs[1..], floorY, i - 1);
    }
  }

  /** The street catches `q`: feet at or below floorY while falling. */
  predicate StreetCatches(q: Fighter, floorY: real) {
    Feet(q) >= floorY && q.vy > 0.0
  }

  /** The street below every building catches a falling fighter. */
  function FloorLand(q: Fighter, floorY: real): (r: Fighter)
    ensures VerticalOnly(q, r) && r.isDead == q.isDead
    // Changed exactly when the street catches the fighter, and then it
    // stands on the street at rest.
    ensures r != q <==> StreetCatches(q, floorY)
    ensures r != q ==> r.isGrounded && Feet(r) == floorY && r.vy == 0.0
  {
    if StreetCatches(q, floorY) then
      q.(y := floorY - q.height, vy := 0.0, isGrounded := true)
    else q
  }

  /** A fighter that fell far below the floor is dead. */
  function FallOut(q: Fighter, floorY: real): (r: Fighter)
    ensures VerticalOnly(q, r) && r.y == q.y && r.vy == q.vy && r.isGrounded == q.isGrounded
    ensures r.isDead <==> q.isDead || q.y > floorY + FALL_OUT_MARGIN
  {
    if q.y > floorY + FALL_OUT_MARGIN then q.(isDead := true) else q
  }

  /** The vertical speed after the wall-slide clamp. */
  function SlideClamp(vy: real, touching: bool): (v: real)
    ensures touching ==> v <= WALL_SLIDE_SPEED
    ensures v == vy || (touching && vy > WALL_SLIDE_SPEED && v == WALL_SLIDE_SPEED)
  {
    if touching && vy > WALL_SLIDE_SPEED then WALL_SLIDE_SPEED else vy
  }

  /** Some roof or the street catches `q` at the end of its move. */
  predicate Caught(q: Fighter, bs: seq<Building>, floorY: real) {
    (exists b :: b in bs && LandsOn(q, b, floorY)) || StreetCatches(q, floorY)
  }

  /** The clamp keeps position and the sign of the vertical speed, so it
      does not change what catches the fighter. */
  lemma ClampKeepsCatch(f: Fighter, touching: bool, bs: seq<Building>, floorY: real)
    ensures var g := f.(vy := SlideClamp(f.vy, touching), isGrounded := false);
      && (forall b :: b in bs ==> (LandsOn(g, b, floorY) <==> LandsOn(f, b, floorY)))
      && (StreetCatches(g, floorY) <==> StreetCatches(f, floorY))
  {
  }

  /** Everything after the wall scan of a tick that did not grab a ledge:
      wall-slide clamp, landing on a roof, landing on the street, fall-out. */
  function Settle(f: Fighter, touching: bool, bs: seq<Building>, floorY: real): (r: Fighter)
    ensures VerticalOnly(f, r)
    ensures touching ==> r.vy <= WALL_SLIDE_SPEED
    ensures r.isGrounded ==> r.vy == 0.0 && (OnSomeRoof(r, bs, floorY) || Feet(r) == floorY)
    ensures r.isDead <==> f.isDead || r.y > floorY + FALL_OUT_MARGIN
    // A roof or the street catching the fighter lands it; otherwise it is
    // airborne where the integration left it, with the clamped speed.
    ensures r.isGrounded <==> Caught(f, bs, floorY)
    ensures !Caught(f, bs, floorY) ==> r.y == f.y && r.vy == SlideClamp(f.vy, touching)
    // A roof that catches the fighter decides where it stands; the street
    // only catches a fighter no roof caught.
    ensures (exists b :: b in bs && LandsOn(f, b, floorY)) ==> RoofLanding(f, r, bs, floorY)
    ensures (forall b :: b in bs ==> !LandsOn(f, b, floorY)) && StreetCatches(f, floorY) ==> Feet(r) == floorY
  {
    var start := f.(vy := SlideClamp(f.vy, touching), isGrounded := false);
    ClampKeepsCatch(f, touching, bs, floorY);
    var landed := LandScan(start, bs, floorY);
    assert landed.isGrounded ==> landed.vy == 0.0 && OnSomeRoof(landed, bs, floorY);
    assert touching ==> landed.vy <= WALL_SLIDE_SPEED;
    var floored := FloorLand(landed, floorY);
    assert floored.isGrounded ==> floored.vy == 0.0 && (OnSomeRoof(floored, bs, floorY) || Feet(floored) == floorY);
    assert floored.isGrounded <==> Caught(f, bs, floorY) by {
      if !landed.isGrounded {
        assert landed == start;
      }
    }
    FallOut(floored, floorY)
  }

  /** The fighter as the wall scan leaves it. */
  function AfterWalls(p: Fighter, dt: real, bs: seq<Building>, floorY: real): Fighter {
    WallScan(Integrate(p, dt), bs, floorY).fighter
  }

  /** A free tick: integrate, scan the walls, then settle unless a ledge was grabbed. */
  function FreeStep(p: Fighter, dt: real, bs: seq<Building>, floorY: real): (r: Fighter)
    ensures SameIdentity(p, r)
    ensures GrabsLedge(p, dt, bs, floorY) ==>
      exists b :: b in bs && LedgeGrab(Integrate(p, dt), r, b, floorY)
    ensures WallContact(p, dt, bs, floorY) ==> r.vy <= WALL_SLIDE_SPEED && r.vx == 0.0
    ensures !GrabsLedge(p, dt, bs, floorY) ==>
      && r.isClimbing == p.isClimbing
      && (r.isGrounded ==> r.vy == 0.0 && (OnSomeRoof(r, bs, floorY) || Feet(r) == floorY))
      && (r.isDead <==> p.isDead || r.y > floorY + FALL_OUT_MARGIN)
      && (r.isGrounded <==> Caught(AfterWalls(p, dt, bs, floorY), bs, floorY))
    ensures !GrabsLedge(p, dt, bs, floorY) && !WallContact(p, dt, bs, floorY) ==>
      && r.x == p.x + p.vx * dt && r.vx == p.vx
      && (r.isGrounded <==> Caught(Integrate(p, dt), bs, floorY))
      && (!Caught(Integrate(p, dt), bs, floorY) ==>
            r.vy == p.vy + GRAVITY * dt && r.y == p.y + r.vy * dt)
  {
    match WallScan(Integrate(p, dt), bs, floorY)
    case Grabbed(g) => g
    case Scanned(f, touching) => Settle(f, touching, bs, floorY)
  }

  // ---------------------------------------------------------------------
  // The tick
  // ---------------------------------------------------------------------

  /** One tick of `updatePhysics` with `floorY` the window height. */
  function Step(p: Fighter, dt: real, bs: seq<Building>, floorY: real): (r: Fighter)
    // A dead fighter is left completely alone.
    ensures p.isDead ==> r == p
    ensures SameIdentity(p, r)
    // Climbing: x and vx untouched, no overshoot, snap on arrival.
    ensures !p.isDead && ClimbingToLedge(p) ==>
      && r.x == p.x && r.vx == p.vx && !r.isDead
      && (0.0 < CLIMB_SPEED * dt <= 1.0 ==> Between(p.y, r.y, p.climbTargetY.value))
      && (r.isClimbing ==> VerticalOnly(p, r) && r.vy == p.vy && r.isGrounded == p.isGrounded && Abs(r.y - p.climbTargetY.value) >= 2.0)
      && (!r.isClimbing ==>
            && r.y == p.climbTargetY.value && r.isGrounded && r.vy == 0.0
            && r.climbTargetY == None && r.climbLockX == None)
    // A ledge grab ends the tick before landing and the fall-out check; it
    // is the only way a free mover starts climbing.
    ensures FreeMover(p) && GrabsLedge(p, dt, bs, floorY) ==>
      && !r.isDead && !r.isGrounded
      && exists b :: b in bs && LedgeGrab(Integrate(p, dt), r, b, floorY)
    ensures FreeMover(p) && !p.isClimbing && r.isClimbing ==> GrabsLedge(p, dt, bs, floorY)
    // Wall slide: after touching a wall the fall is at most the slide speed.
    ensures FreeMover(p) && WallContact(p, dt, bs, floorY) ==> r.vy <= WALL_SLIDE_SPEED && r.vx == 0.0
    // Ground invariant and fall-out death after a free tick.
    ensures FreeMover(p) && !GrabsLedge(p, dt, bs, floorY) ==>
      && r.isClimbing == p.isClimbing
      && (r.isGrounded ==> r.vy == 0.0 && (OnSomeRoof(r, bs, floorY) || Feet(r) == floorY))
      && (r.isDead <==> r.y > floorY + FALL_OUT_MARGIN)
  {
    if p.isDead then p
    else if ClimbingToLedge(p) then ClimbStep(p, dt)
    else FreeStep(p, dt, bs, floorY)
  }

  /** Landing in a free tick: the fighter ends grounded exactly when a roof
      or the street catches it where the wall scan left it. */
  lemma LandsWhenCaught(p: Fighter, dt: real, bs: seq<Building>, floorY: real)
    requires FreeMover(p) && !GrabsLedge(p, dt, bs, floorY)
    ensures Step(p, dt, bs, floorY).isGrounded <==> Caught(AfterWalls(p, dt, bs, floorY), bs, floorY)
  {
  }

  /** Roof landing in a free tick: a fighter that some roof catches where
      the wall scan left it stands on the roof of a building it lies over,
      no lower than its feet were. */
  lemma LandsOnRoofOver(p: Fighter, dt: real, bs: seq<Building>, floorY: real)
    requires FreeMover(p) && !GrabsLedge(p, dt, bs, floorY)
    requires exists b :: b in bs && LandsOn(AfterWalls(p, dt, bs, floorY), b, floorY)
    ensures Step(p, dt, bs, floorY).isGrounded && Step(p, dt, bs, floorY).vy == 0.0
    ensures RoofLanding(AfterWalls(p, dt, bs, floorY), Step(p, dt, bs, floorY), bs, floorY)
  {
  }

  /** Roof landing on the one roof that catches the fighter where the wall
      scan left it: the tick ends with its feet on that roof, at rest. */
  lemma LandsOnSoleRoof(p: Fighter, dt: real, bs: seq<Building>, floorY: real, i: nat)
    requires FreeMover(p) && !GrabsLedge(p, dt, bs, floorY) && i < |bs|
    requires forall j :: 0 <= j < i ==> !LandsOn(AfterWalls(p, dt, bs, floorY), bs[j], floorY)
    requires LandsOn(AfterWalls(p, dt, bs, floorY), bs[i], floorY)
    requires forall j :: i < j < |bs| ==>
      !LandsOn(SnapOnto(AfterWalls(p, dt, bs, floorY), bs[i], floorY), bs[j], floorY)
    ensures Step(p, dt, bs, floorY) == FallOut(SnapOnto(AfterWalls(p, dt, bs, floorY), bs[i], floorY), floorY)
    ensures Feet(Step(p, dt, bs, floorY)) == RoofY(bs[i], floorY)
    ensures Step(p, dt, bs, floorY).isGrounded && Step(p, dt, bs, floorY).vy == 0.0
  {
    var s := WallScan(Integrate(p, dt), bs, floorY);
    var f := s.fighter;
    var start := f.(vy := SlideClamp(f.vy, s.touching), isGrounded := false);
    ClampKeepsCatch(f, s.touching, bs, floorY);
    assert SnapOnto(start, bs[i], floorY) == SnapOnto(f, bs[i], floorY);
    assert forall j :: 0 <= j < |bs| ==> (LandsOn(start, bs[j], floorY) <==> LandsOn(f, bs[j], floorY)) by {
      assert forall j :: 0 <= j < |bs| ==> bs[j] in bs;
    }
    LandOnSoleCatcher(start, bs, floorY, i);
  }

  /** Free motion: with no ledge and no wall, x moves by vx·dt, gravity adds
      2000·dt to vy, and y moves by the new vy·dt; a roof or the street
      catching the moved fighter lands it, otherwise it stays airborne there. */
  lemma FreeFall(p: Fighter, dt: real, bs: seq<Building>, floorY: real)
    requires FreeMover(p) && !GrabsLedge(p, dt, bs, floorY) && !WallContact(p, dt, bs, floorY)
    ensures var r := Step(p, dt, bs, floorY);
      && r.x == p.x + p.vx * dt && r.vx == p.vx
      && (r.isGrounded <==> Caught(Integrate(p, dt), bs, floorY))
      && (!Caught(Integrate(p, dt), bs, floorY) ==>
            r.vy == p.vy + GRAVITY * dt && r.y == p.y + r.vy * dt && !r.isGrounded)
  {
  }

  /** A free mover whose moved box first meets a building that grabs it
      ends the tick caught on that building's ledge. */
  lemma GrabOnFirstContact(p: Fighter, dt: real, bs: seq<Building>, floorY: real, i: nat)
    requires FreeMover(p) && i < |bs|
    requires forall j :: 0 <= j < i ==> ContactWith(Integrate(p, dt), bs[j], floorY).Clear?
    requires ContactWith(Integrate(p, dt), bs[i], floorY).Grab?
    ensures Step(p, dt, bs, floorY) == ContactWith(Integrate(p, dt), bs[i], floorY).grabbed
    ensures LedgeGrab(Integrate(p, dt), Step(p, dt, bs, floorY), bs[i], floorY)
  {
    FirstContactDecides(Integrate(p, dt), bs, floorY, i);
  }

  /** A free mover whose moved box first meets a wall, and meets nothing
      after being pushed against it, ends the tick flush against that wall's
      face with vx 0, then settles as a wall slide. */
  lemma WallOnFirstContact(p: Fighter, dt: real, bs: seq<Building>, floorY: real, i: nat)
    requires FreeMover(p) && i < |bs|
    requires forall j :: 0 <= j < i ==> ContactWith(Integrate(p, dt), bs[j], floorY).Clear?
    requires ContactWith(Integrate(p, dt), bs[i], floorY).Wall?
    requires forall j :: i < j < |bs| ==>
      ContactWith(ContactWith(Integrate(p, dt), bs[i], floorY).pushed, bs[j], floorY).Clear?
    ensures Step(p, dt, bs, floorY) == Settle(ContactWith(Integrate(p, dt), bs[i], floorY).pushed, true, bs, floorY)
    ensures Step(p, dt, bs, floorY).x == WallX(Integrate(p, dt), bs[i])
    ensures Step(p, dt, bs, floorY).vx == 0.0 && Step(p, dt, bs, floorY).vy <= WALL_SLIDE_SPEED
  {
    PushOnFirstContact(Integrate(p, dt), bs, floorY, i);
  }

  // ---------------------------------------------------------------------
  // Several ticks
  // ---------------------------------------------------------------------

  /** A tick of a fighter climbing towards a ledge is a climb step, whatever
      the skyline: the scripted climb ignores the buildings. */
  lemma StepWhileClimbing(p: Fighter, dt: real, bs: seq<Building>, floorY: real)
    requires !p.isDead && ClimbingToLedge(p)
    ensures Step(p, dt, bs, floorY) == ClimbStep(p, dt)
  {
  }

  /** Up to `n` ticks of a fixed `dt` while the fighter climbs towards a
      ledge (each one `Step`, by StepWhileClimbing), stopping as soon as it
      no longer does. */
  function ClimbTicks(p: Fighter, dt: real, n: nat): Fighter
    decreases n
  {
    if n == 0 || p.isDead || !ClimbingToLedge(p) then p
    else ClimbTicks(ClimbStep(p, dt), dt, n - 1)
  }

  /** The distance `n` climbing ticks are sure to cover before the last one. */
  function ClimbBudget(n: nat, dt: real): real {
    (n as real) * (2.0 * (CLIMB_SPEED * dt))
  }

  lemma ClimbBudgetStep(n: nat, dt: real)
    requires n >= 1
    ensures ClimbBudget(n, dt) == ClimbBudget(n - 1, dt) + 2.0 * (CLIMB_SPEED * dt)
  {
  }

  /** A climb always finishes: with 0 < CLIMB_SPEED * dt <= 1 every tick that
      does not arrive closes at least 2 * CLIMB_SPEED * dt of the distance, so
      n + 1 ticks suffice once that distance is at most n times as much. The
      fighter then stands on the ledge, grounded and at rest, at the x where
      it grabbed. */
  lemma {:induction false} ClimbArrives(p: Fighter, dt: real, n: nat)
    requires !p.isDead && ClimbingToLedge(p)
    requires 0.0 < CLIMB_SPEED * dt <= 1.0
    requires Abs(p.y - p.climbTargetY.value) <= ClimbBudget(n, dt)
    ensures OnLedge(ClimbTicks(p, dt, n + 1), p.climbTargetY.value, p.x)
    decreases n
  {
    var q1 := ClimbStep(p, dt);
    ClimbProgress(p, dt, n);
    if q1.isClimbing {
      var m: nat := n - 1;
      ClimbArrives(q1, dt, m);
      assert ClimbTicks(q1, dt, m + 1) == ClimbTicks(p, dt, n + 1);
    }
  }

  /** One climbing tick either arrives or leaves a climb whose remaining
      distance fits a budget smaller by one. */
  lemma ClimbProgress(p: Fighter, dt: real, n: nat)
    requires !p.isDead && ClimbingToLedge(p)
    requires 0.0 < CLIMB_SPEED * dt <= 1.0
    requires Abs(p.y - p.climbTargetY.value) <= ClimbBudget(n, dt)
    ensures var q := ClimbStep(p, dt);
      ClimbTicks(p, dt, n + 1) == ClimbTicks(q, dt, n)
      && (!q.isClimbing ==> ClimbTicks(q, dt, n) == q && OnLedge(q, p.climbTargetY.value, p.x))
      && (q.isClimbing ==>
            && n >= 1 && !q.isDead && ClimbingToLedge(q)
            && q.climbTargetY == p.climbTargetY && q.x == p.x
            && Abs(q.y - q.climbTargetY.value) <= ClimbBudget(n - 1, dt))
  {
    var q := ClimbStep(p, dt);
    ClimbTicksUnfold(p, dt, n);
    if q.isClimbing {
      assert n >= 1;
      ClimbBudgetStep(n, dt);
    }
  }

  lemma ClimbTicksUnfold(p: Fighter, dt: real, n: nat)
    requires !p.isDead && ClimbingToLedge(p)
    ensures ClimbTicks(p, dt, n + 1) == ClimbTicks(ClimbStep(p, dt), dt, n)
    ensures !ClimbStep(p, dt).isClimbing ==> ClimbTicks(ClimbStep(p, dt), dt, n) == ClimbStep(p, dt)
  {
  }

  /** Standing on the ledge at `t` after a finished climb at `x`. */
  predicate OnLedge(q: Fighter, t: real, x: real) {
    && !q.isClimbing && q.isGrounded && q.vy == 0.0
    && q.y == t && q.x == x
    && q.climbTargetY == None && q.climbLockX == None
  }

  /** Landing looks only at where the fighter ends the tick, so a fast fall
      can pass through a roof: a fighter 10 above a roof, falling at 3000 with
      a 0.05 tick, ends the tick on the street inside the building. */
  lemma FallThroughRoof()
    ensures var b := Building("normal-0", 0.0, 0.0, 200.0, 100.0, Normal);
      var p := Fighter(50.0, 620.0, 0.0, 3000.0, PLAYER_W, PLAYER_H, false, false, None, None,
                       false, false, true, Normal, 100.0, None, 0.0);
      var r := Step(p, 0.05, [b], 800.0);
      && Feet(p) < RoofY(b, 800.0)
      && b.x < r.x && r.x + r.width < b.x + b.width
      && r.isGrounded && Feet(r) == 800.0
  {
    var b := Building("normal-0", 0.0, 0.0, 200.0, 100.0, Normal);
    var p := Fighter(50.0, 620.0, 0.0, 3000.0, PLAYER_W, PLAYER_H, false, false, None, None,
                     false, false, true, Normal, 100.0, None, 0.0);
    var q := Integrate(p, 0.05);
    assert q.y == 775.0;
    assert ContactWith(q, b, 800.0) == Clear;
    assert WallScan(q, [b], 800.0) == Scanned(q, false) by {
      assert [b][1..] == [];
    }
    assert !LandsOn(q, b, 800.0);
  }
}

=== FILE: skyline.dfy ===
/** Procedural skyline (lib/game-utils.ts, generateSkyline): a cursor walks
    left to right placing 50 buildings, sometimes leaving a gap before one.
    Each `Math.random()` draw is an input; one record holds the draws one
    building consumes. */
module Skyline {
  import opened Common
  import opened Entities
  import Decimal

  const COUNT: nat := 50
  const GAP_CHANCE_CUTOFF: real := 0.8
  const MIN_WIDTH: real := 100.0
  const WIDTH_SPREAD: real := 200.0
  const MIN_HEIGHT: real := 100.0
  const HEIGHT_SPREAD: real := 300.0
  const MIN_GAP: real := 100.0
  const GAP_SPREAD: real := 100.0
  const SPACING_SPREAD: real := 20.0

  /** The draws behind one building, in the order the source consumes them:
      whether to leave a gap, the gap's size (drawn only when there is a
      gap), width, height, and the small spacing after the building. The two
      draws in between that only tint the colour are not modelled. */
  datatype Rolls = Rolls(gap: real, gapSize: real, width: real, height: real, spacing: real)

  predicate ValidRolls(r: Rolls) {
    IsDraw(r.gap) && IsDraw(r.gapSize) && IsDraw(r.width) && IsDraw(r.height) && IsDraw(r.spacing)
  }

  /** `type-i`, the id of the i-th building of a skyline of that type. */
  function BuildingId(kind: Realm, i: nat): string {
    RealmName(kind) + "-" + Decimal.FromNat(i)
  }

  lemma BuildingIdInjective(kind: Realm, i: nat, j: nat)
    requires BuildingId(kind, i) == BuildingId(kind, j)
    ensures i == j
  {
    var prefix := RealmName(kind) + "-";
    assert BuildingId(kind, i)[|prefix|..] == Decimal.FromNat(i);
    assert BuildingId(kind, j)[|prefix|..] == Decimal.FromNat(j);
    Decimal.FromNatInjective(i, j);
  }

  /** The i-th building has the shape the generator promises. */
  predicate Shaped(b: Building, kind: Realm, i: nat) {
    && b.id == BuildingId(kind, i)
    && b.y == 0.0 && b.kind == kind
    && MIN_WIDTH <= b.width < MIN_WIDTH + WIDTH_SPREAD
    && MIN_HEIGHT <= b.height < MIN_HEIGHT + HEIGHT_SPREAD
  }

  /** Where the free space before building i starts: the origin for the
      first building, the right edge of the previous one otherwise. */
  function PreviousEnd(bs: seq<Building>, i: nat): real
    requires i < |bs|
  {
    if i == 0 then 0.0 else bs[i - 1].x + bs[i - 1].width
  }

  /** The free space before building i is a deliberate gap of 100 or more
      exactly when its gap draw exceeds 0.8; otherwise it is only the small
      spacing of less than 20 (none at all before the first building). */
  predicate SpacedByRoll(bs: seq<Building>, rolls: seq<Rolls>, i: nat)
    requires i < |bs| && i < |rolls|
  {
    var space := bs[i].x - PreviousEnd(bs, i);
    && (rolls[i].gap > GAP_CHANCE_CUTOFF ==> MIN_GAP <= space < MIN_GAP + GAP_SPREAD + SPACING_SPREAD)
    && (rolls[i].gap <= GAP_CHANCE_CUTOFF ==> 0.0 <= space < SPACING_SPREAD)
    && (i == 0 ==> space < MIN_GAP + GAP_SPREAD && (rolls[i].gap <= GAP_CHANCE_CUTOFF ==> space == 0.0))
  }

  /** One iteration's building: an optional gap moves the cursor first,
      then the building is placed at the cursor with its drawn size. */
  function Place(kind: Realm, i: nat, cursor: real, r: Rolls): (b: Building)
    requires ValidRolls(r)
    ensures Shaped(b, kind, i)
    ensures r.gap > GAP_CHANCE_CUTOFF ==> cursor + MIN_GAP <= b.x < cursor + MIN_GAP + GAP_SPREAD
    ensures r.gap <= GAP_CHANCE_CUTOFF ==> b.x == cursor
  {
    var isGap := r.gap > GAP_CHANCE_CUTOFF;
    var gapSize := if isGap then MIN_GAP + r.gapSize * GAP_SPREAD else 0.0;
    var x := if isGap then cursor + gapSize else cursor;
    var width := MIN_WIDTH + r.width * WIDTH_SPREAD;
    var height := MIN_HEIGHT + r.height * HEIGHT_SPREAD;
    Building(BuildingId(kind, i), x, 0.0, width, height, kind)
  }

  /** The cursor after a building: its right edge plus a small random spacing. */
  function After(b: Building, r: Rolls): (cursor: real)
    requires ValidRolls(r)
    ensures b.x + b.width <= cursor < b.x + b.width + SPACING_SPREAD
  {
    b.x + b.width + r.spacing * SPACING_SPREAD
  }

  method GenerateSkyline(kind: Realm, rolls: seq<Rolls>) returns (bs: seq<Building>)
    requires |rolls| >= COUNT
    requires forall k :: 0 <= k < |rolls| ==> ValidRolls(rolls[k])
    ensures |bs| == COUNT
    ensures forall i :: 0 <= i < |bs| ==> Shaped(bs[i], kind, i)
    ensures forall i :: 0 <= i < |bs| ==> SpacedByRoll(bs, rolls, i)
    ensures forall i :: 0 <= i < |bs| - 1 ==> bs[i].x + bs[i].width <= bs[i + 1].x
    ensures forall i, j :: 0 <= i < j < |bs| ==> bs[i].id != bs[j].id
  {
    bs := [];
    var currentX: real := 0.0;
    var i: nat := 0;
    while i < COUNT
      invariant i <= COUNT && |bs| == i
      invariant forall k :: 0 <= k < i ==> Shaped(bs[k], kind, k)
      invariant forall k :: 0 <= k < i ==> SpacedByRoll(bs, rolls, k)
      invariant i == 0 ==> currentX == 0.0
      invariant i > 0 ==> bs[i - 1].x + bs[i - 1].width <= currentX < bs[i - 1].x + bs[i - 1].width + SPACING_SPREAD
    {
      var b := Place(kind, i, currentX, rolls[i]);
      ghost var before := bs;
      bs := bs + [b];
      SpacingKept(before, b, rolls);
      currentX := After(b, rolls[i]);
      i := i + 1;
    }
    SpacedIsSorted(bs, rolls);
    ShapedIdsDistinct(bs, kind);
  }

  /** Consecutive buildings never overlap once every space before one is non-negative. */
  lemma SpacedIsSorted(bs: seq<Building>, rolls: seq<Rolls>)
    requires |bs| <= |rolls|
    requires forall i :: 0 <= i < |bs| ==> SpacedByRoll(bs, rolls, i)
    ensures forall i :: 0 <= i < |bs| - 1 ==> bs[i].x + bs[i].width <= bs[i + 1].x
  {
    forall i | 0 <= i < |bs| - 1
      ensures bs[i].x + bs[i].width <= bs[i + 1].x
    {
      assert SpacedByRoll(bs, rolls, i + 1);
    }
  }

  /** The ids `type-i` of a generated skyline are pairwise distinct. */
  lemma ShapedIdsDistinct(bs: seq<Building>, kind: Realm)
    requires forall i :: 0 <= i < |bs| ==> Shaped(bs[i], kind, i)
    ensures forall i, j :: 0 <= i < j < |bs| ==> bs[i].id != bs[j].id
  {
    forall i, j | 0 <= i < j < |bs|
      ensures bs[i].id != bs[j].id
    {
      if bs[i].id == bs[j].id {
        BuildingIdInjective(kind, i, j);
      }
    }
  }

  /** Appending a building leaves the spacing facts of the earlier ones intact. */
  lemma SpacingKept(before: seq<Building>, b: Building, rolls: seq<Rolls>)
    requires |before| < |rolls|
    ensures forall k :: 0 <= k < |before| ==>
      SpacedByRoll(before, rolls, k) ==> SpacedByRoll(before + [b], rolls, k)
  {
    var after := before + [b];
    forall k | 0 <= k < |before| && SpacedByRoll(before, rolls, k)
      ensures SpacedByRoll(after, rolls, k)
    {
      assert after[k] == before[k];
      if k > 0 {
        assert after[k - 1] == before[k - 1];
      }
    }
  }
}

=== FILE: spawn.dfy ===
/** Safe respawn points (lib/game-utils.ts, getSafeSpawn): one candidate on
    top of every building wide enough for the player, one of them picked at
    random. */
module Spawn {
  import opened Common
  import opened Entities
  import Skyline

  /** A building must be wider than the player plus this margin to host a spawn. */
  const SPAWN_MARGIN: real := 20.0

  datatype Point = Point(x: real, y: real)

  predicate Hosts(b: Building) {
    b.width > PLAYER_W + SPAWN_MARGIN
  }

  /** `c`, the player's top-left corner, puts the middle of the player's
      box over the middle of `b` and the player's feet on `b`'s roof. */
  predicate CentredOn(c: Point, b: Building, floorY: real) {
    c.x + PLAYER_W / 2.0 == b.x + b.width / 2.0 && c.y + PLAYER_H == floorY - b.height
  }

  /** The player's box at `c` lies on `b`'s roof with more than half the
      margin to spare on each side. */
  predicate ClearOfEdges(c: Point, b: Building) {
    b.x + SPAWN_MARGIN / 2.0 < c.x && c.x + PLAYER_W < b.x + b.width - SPAWN_MARGIN / 2.0
  }

  /** The spawn point on top of `b`. */
  function SpawnOn(b: Building, floorY: real): (c: Point)
    ensures CentredOn(c, b, floorY)
    // The width filter is exactly what keeps the player's box clear of the roof's edges.
    ensures ClearOfEdges(c, b) <==> Hosts(b)
  {
    Point(b.x + b.width / 2.0 - PLAYER_W / 2.0, floorY - b.height - PLAYER_H)
  }

  /** The candidates, in building order. */
  function Candidates(bs: seq<Building>, floorY: real): (cs: seq<Point>)
    ensures |cs| <= |bs|
    ensures forall c :: c in cs ==> exists b :: b in bs && Hosts(b) && c == SpawnOn(b, floorY)
    ensures forall b :: b in bs && Hosts(b) ==> SpawnOn(b, floorY) in cs
    ensures (forall b :: b in bs ==> Hosts(b)) ==> |cs| == |bs|
  {
    if |bs| == 0 then []
    else
      var rest := Candidates(bs[1..], floorY);
      CandidatesStep(bs, rest, floorY);
      if Hosts(bs[0]) then [SpawnOn(bs[0], floorY)] + rest else rest
  }

  /** The membership facts of the first building combine with the rest's. */
  lemma CandidatesStep(bs: seq<Building>, rest: seq<Point>, floorY: real)
    requires |bs| > 0
    requires forall c :: c in rest ==> exists b :: b in bs[1..] && Hosts(b) && c == SpawnOn(b, floorY)
    requires forall b :: b in bs[1..] && Hosts(b) ==> SpawnOn(b, floorY) in rest
    ensures var cs := if Hosts(bs[0]) then [SpawnOn(bs[0], floorY)] + rest else rest;
      && (forall c :: c in cs ==> exists b :: b in bs && Hosts(b) && c == SpawnOn(b, floorY))
      && (forall b :: b in bs && Hosts(b) ==> SpawnOn(b, floorY) in cs)
  {
    assert forall b :: b in bs[1..] ==> b in bs;
    assert forall b :: b in bs ==> b == bs[0] || b in bs[1..];
  }

  /** The point at `Math.floor(roll * count)` among the candidates; with no
      candidate the source reads past the end and yields `undefined`. */
  function GetSafeSpawn(bs: seq<Building>, floorY: real, roll: real): (r: Option<Point>)
    requires IsDraw(roll)
    ensures r.None? <==> forall b :: b in bs ==> !Hosts(b)
    ensures r.Some? ==> exists b :: b in bs && Hosts(b) && CentredOn(r.value, b, floorY) && ClearOfEdges(r.value, b)
  {
    var cs := Candidates(bs, floorY);
    if |cs| == 0 then
      assert forall b :: b in bs ==> !Hosts(b);
      None
    else
      var c := cs[Pick(roll, |cs|)];
      assert c in cs;
      Some(c)
  }

  /** Every building the skyline generator shapes is at least 100 wide, so
      every building of a generated skyline hosts a spawn point and a
      respawn always finds somewhere to land. */
  lemma {:induction false} GeneratedSkylineAlwaysSpawns(bs: seq<Building>, kind: Realm, floorY: real, roll: real)
    requires IsDraw(roll) && |bs| > 0
    requires forall i :: 0 <= i < |bs| ==> Skyline.Shaped(bs[i], kind, i)
    ensures |Candidates(bs, floorY)| == |bs|
    ensures GetSafeSpawn(bs, floorY, roll).Some?
  {
    forall b | b in bs
      ensures Hosts(b)
    {
      var i :| 0 <= i < |bs| && bs[i] == b;
      assert Skyline.Shaped(bs[i], kind, i);
    }
    assert bs[0] in bs;
  }
}

=== FILE: username.dfy ===
/** Guest usernames (lib/authUtils.ts, generateRandomUsername): an adjective,
    a noun and a number below 999, written one after the other. The partner
    of the generator is a parser that recovers the three parts. */
module Username {
  import opened Common
  import Decimal

  const ADJECTIVES: seq<string> := ["Shadow", "Rift", "Void", "Neon", "Cyber", "Dark", "Lunar", "Solar", "Glitch", "Prime"]
  const NOUNS: seq<string> := ["Walker", "Runner", "Blade", "Zero", "Ghost", "Spectre", "Knight", "Ninja", "Samurai", "Viper"]
  /** The number is drawn from 0 to 998. */
  const NUMBER_RANGE: nat := 999

  /** The three choices behind a username: indices into the word lists and the number. */
  datatype Parts = Parts(adjective: nat, noun: nat, number: nat)

  predicate ValidParts(p: Parts) {
    p.adjective < |ADJECTIVES| && p.noun < |NOUNS| && p.number < NUMBER_RANGE
  }

  function Compose(p: Parts): string
    requires p.adjective < |ADJECTIVES| && p.noun < |NOUNS|
  {
    ADJECTIVES[p.adjective] + NOUNS[p.noun] + Decimal.FromNat(p.number)
  }

  /** generateRandomUsername, with its three `Math.random()` draws as parameters. */
  function GenerateRandomUsername(r1: real, r2: real, r3: real): (name: string)
    requires IsDraw(r1) && IsDraw(r2) && IsDraw(r3)
    ensures Parse(name) == Some(Parts(Pick(r1, |ADJECTIVES|), Pick(r2, |NOUNS|), Pick(r3, NUMBER_RANGE)))
  {
    var p := Parts(Pick(r1, |ADJECTIVES|), Pick(r2, |NOUNS|), Pick(r3, NUMBER_RANGE));
    ParseCompose(p);
    Compose(p)
  }

  /** The first word of `words`, from index `from` on, that begins `s`. */
  function FindWord(words: seq<string>, s: string, from: nat): (r: Option<nat>)
    decreases |words| - from
    ensures r.Some? ==> from <= r.value < |words| && words[r.value] <= s
    ensures r.Some? ==> forall j :: from <= j < r.value ==> !(words[j] <= s)
    ensures r.None? ==> forall j :: from <= j < |words| ==> !(words[j] <= s)
  {
    if from >= |words| then None
    else if words[from] <= s then Some(from)
    else FindWord(words, s, from + 1)
  }

  /** Splits a name into its parts; None when it is not a generated name. */
  function Parse(s: string): (r: Option<Parts>)
    ensures r.Some? ==> ValidParts(r.value) && s == Compose(r.value)
  {
    match FindWord(ADJECTIVES, s, 0)
    case None => None
    case Some(a) =>
      var rest := s[|ADJECTIVES[a]|..];
      match FindWord(NOUNS, rest, 0)
      case None => None
      case Some(n) =>
        var digits := rest[|NOUNS[n]|..];
        match Decimal.Parse(digits)
        case None => None
        case Some(k) =>
          if k < NUMBER_RANGE then
            Decimal.ParseIffFromNat(digits, k);
            Some(Parts(a, n, k))
          else None
  }

  /** No two words of a list share their first two letters, so no word of
      the list begins another. */
  predicate TwoLetterHeadsDistinct(words: seq<string>) {
    && (forall i :: 0 <= i < |words| ==> |words[i]| >= 2)
    && (forall i, j :: 0 <= i < j < |words| ==> words[i][..2] != words[j][..2])
  }

  lemma AdjectiveHeads()
    ensures TwoLetterHeadsDistinct(ADJECTIVES)
  {
    assert ADJECTIVES[0][..2] == "Sh" && ADJECTIVES[1][..2] == "Ri" && ADJECTIVES[2][..2] == "Vo";
    assert ADJECTIVES[3][..2] == "Ne" && ADJECTIVES[4][..2] == "Cy" && ADJECTIVES[5][..2] == "Da";
    assert ADJECTIVES[6][..2] == "Lu" && ADJECTIVES[7][..2] == "So" && ADJECTIVES[8][..2] == "Gl";
    assert ADJECTIVES[9][..2] == "Pr";
  }

  lemma NounHeads()
    ensures TwoLetterHeadsDistinct(NOUNS)
  {
    assert NOUNS[0][..2] == "Wa" && NOUNS[1][..2] == "Ru" && NOUNS[2][..2] == "Bl";
    assert NOUNS[3][..2] == "Ze" && NOUNS[4][..2] == "Gh" && NOUNS[5][..2] == "Sp";
    assert NOUNS[6][..2] == "Kn" && NOUNS[7][..2] == "Ni" && NOUNS[8][..2] == "Sa";
    assert NOUNS[9][..2] == "Vi";
  }

  /** In a list with distinct two-letter heads, the word that begins `w + t`
      is `w` itself. */
  lemma FindsOwnWord(words: seq<string>, i: nat, t: string)
    requires TwoLetterHeadsDistinct(words) && i < |words|
    ensures FindWord(words, words[i] + t, 0) == Some(i)
  {
    var s := words[i] + t;
    assert words[i] <= s;
    forall j | 0 <= j < |words| && j != i
      ensures !(words[j] <= s)
    {
      assert s[..2] == words[i][..2];
      // The heads are distinct for each ordered pair, so name the pair in order.
      if j < i {
        assert words[j][..2] != words[i][..2];
      } else {
        assert words[i][..2] != words[j][..2];
      }
    }
  }

  /** Every valid choice of parts is recovered from the name it produces. */
  lemma ParseCompose(p: Parts)
    requires ValidParts(p)
    ensures Parse(Compose(p)) == Some(p)
  {
    AdjectiveHeads();
    NounHeads();
    var digits := Decimal.FromNat(p.number);
    var s := Compose(p);
    assert s == ADJECTIVES[p.adjective] + (NOUNS[p.noun] + digits);
    FindsOwnWord(ADJECTIVES, p.adjective, NOUNS[p.noun] + digits);
    var rest := s[|ADJECTIVES[p.adjective]|..];
    assert rest == NOUNS[p.noun] + digits;
    FindsOwnWord(NOUNS, p.noun, digits);
    assert rest[|NOUNS[p.noun]|..] == digits;
    Decimal.ParseIffFromNat(digits, p.number);
  }

  /** Parsing and composing are inverse: a name parses to some parts exactly
      when it is the name those parts compose to. */
  lemma ParseIffCompose(s: string, p: Parts)
    requires ValidParts(p)
    ensures Parse(s) == Some(p) <==> s == Compose(p)
  {
    if s == Compose(p) {
      ParseCompose(p);
    }
  }

  /** Distinct choices give distinct names. */
  lemma ComposeInjective(p: Parts, q: Parts)
    requires ValidParts(p) && ValidParts(q) && Compose(p) == Compose(q)
    ensures p == q
  {
    ParseCompose(p);
    ParseCompose(q);
  }
}
